=== FILE: README.md ===
# pacopy natural continuation and Newton corrector, in Dafny

This project models the two pieces of control logic of pacopy:

- `natural` (src/pacopy/natural.py) — natural-parameter continuation. It solves
  F(u, lambda0) = 0 and reports the solution to a callback. Then it repeatedly
  predicts a new parameter lambda + stepsize, clamps it to the next milestone,
  corrects with Newton, and either accepts the step or backs off. Accepting fires
  the callback, then moves on to the next milestone or grows the step size.
  Backing off halves the step size.
- `newton` (pycont/newton.py) — a Newton loop over an abstract vector type. It
  repeats u += jacobian_solver(u, -f(u)) until the residual norm is below `tol`,
  or raises NewtonConvergenceError once `max_iter` corrections are used.

The numerics are abstract. The problem functions, the linear solver, the norm, the
first-order predictor and the Newton corrector that `natural` calls are
function-typed parameters with no axioms. Python floats are `real`.

Layout:

- `newton.dfy`, module `Newton`: the loop as a method with loop invariants. Its
  results are compared with a reference sequence of iterates, `Iterate`.
- `natural.dfy`, module `NaturalContinuation`: an immutable driver state, and the
  single pass of the `while True` loop as a pure function `Step`. `Loop` runs
  passes under a fuel bound and `Natural` is the whole function with that loop.
- `natural_properties.dfy`, module `NaturalProperties`: a lemma for each kind of
  transition, facts about the growth factor, and invariants of the bounded run.

## Behaviour worth knowing

These are facts about the code, and the model follows each of them.

- A failed trial that the milestone clamp shortened moves lambda below the
  lambda its pass started from. The backoff (natural.py:106) subtracts the
  unhalved step size from the clamped trial, not from the unclamped
  lambda + stepsize. The loop's lambda is never above the last accepted value
  (`NaturalProperties.LoopLambdaAtMostLastCallback`), so it ends up below that
  value. A later accepted lambda can then be smaller than an earlier one:
  `NaturalProperties.BackoffAfterClampCanGoBackwards` gives a concrete run.
  Without milestones nothing is clamped, and the backoff restores lambda exactly.
  With a positive step size, every callback's lambda is then strictly above the
  one before (`NaturalProperties.NaturalIncreasesWithoutMilestones`). The
  docstring asks only that milestones are not stepped over (natural.py:46), and
  that still holds (`NaturalProperties.LoopNeverSkipsMilestone`).
- `newton` in pycont/newton.py fails for every `max_iter <= 0`, even at an
  already converged `u0`. Its convergence test sits inside the loop (newton.py:20-23).
- `lambda_stepsize0` is never clamped to `lambda_stepsize_max`; only grown steps
  are (natural.py:123). With a maximum that is not negative, a `lambda_stepsize0`
  not above the maximum keeps every later step not above it, whatever the
  aggressiveness. With aggressiveness ≥ 0 and 0 ≤ `lambda_stepsize0` ≤ maximum,
  every later step also stays ≥ 0 (`NaturalProperties.NaturalStepsizeBounds`).
  A negative maximum can be exceeded even from a start below it. Halving after a
  failed trial (natural.py:107) moves a negative step towards 0, and so above the
  maximum (`NaturalProperties.NegativeMaximumCanBeExceeded`).
- The keyword defaults of natural.py:11-19 and newton.py:10 are the defaults of
  `NaturalContinuation.Config` and `Newton.Newton`. With them the Newton budget is
  5, so a call that passes no options never divides by zero
  (`NaturalProperties.DefaultsNeverDivideByZero`).
- With `max_newton_steps == 1`, the growth formula (natural.py:118-122) divides
  by zero. An accepted step that is not on a milestone therefore raises
  `ZeroDivisionError` right after its callback. The docstring (natural.py:33-36)
  describes this growth as aiming to use up `max_newton_steps`.
- An empty milestone sequence makes the `next` call on line 71 raise
  `StopIteration` after the first callback, before the `max_steps` test.
- `if milestones:` on line 85 tests the iterator object, which is always truthy.
  It therefore means "milestones were given", the same as the `is not None` test
  on line 112.

## Model

| member | source | states |
|---|---|---|
| `Newton.Newton` | pycont/newton.py:10-37 | It succeeds exactly when one of the iterates u_0 … u_{max_iter−1} has residual norm below tol. On success it returns the first such iterate, after fewer than max_iter solver calls. On failure it reports a count equal to max_iter (0 for a negative budget), and that is also the number of solver calls. A budget ≤ 0 always fails. With a budget ≥ 1, an already converged u0 is returned unchanged after zero solves. |
| `NaturalContinuation.Cap` | src/pacopy/natural.py:123 | `min(x, limit)` is at most x, at most a finite limit, and is one of the two; an infinite limit changes nothing. |
| `NaturalContinuation.Trial` | src/pacopy/natural.py:84-86 | The trial lambda is lambda + stepsize, or the pending milestone if that is smaller. It never exceeds the pending milestone. |
| `NaturalContinuation.Step` | src/pacopy/natural.py:73-123 | One loop pass keeps the milestone cursor inside the sequence. A callback is made only while k ≤ max_steps, and it carries the current k. k grows by one exactly when a callback was made. |
| `NaturalContinuation.Loop` | src/pacopy/natural.py:73-123 | Over any number of passes, the callback indices continue consecutively from the current k. No callback index exceeds max_steps. A run cut off by fuel ends in a valid state. The loop returns only once k > max_steps or right after a callback at the last milestone. The only exception it raises is the division by zero, and only when max_newton_steps = 1. |
| `NaturalContinuation.Natural` | src/pacopy/natural.py:48-123 | The initial Newton error is raised, before any callback, exactly when the initial solve fails. Otherwise the first callback is (0, lambda0, u). StopIteration is raised right after that callback exactly when the milestone sequence is empty. Division by zero needs max_newton_steps = 1. A normal return happens only past max_steps or right after a callback at the last milestone. Callback indices are 0, 1, 2, …, and a finite max_steps allows at most max_steps + 1 callbacks. |
| `NaturalProperties.PastMaxStepsStops` | src/pacopy/natural.py:74-75 | Once k > max_steps, the pass breaks without a callback. Below that bound, a callback happens exactly when the corrector converges. |
| `NaturalProperties.FailedCorrectionBacksOff` | src/pacopy/natural.py:84-108 | A failed corrector keeps u, k and the cursor, makes no callback, halves the step size, and sets lambda to trial − stepsize. That equals the lambda the pass started from exactly when the clamp did not shorten the trial. A clamped trial that fails moves lambda below the lambda the pass started from. |
| `NaturalProperties.AcceptedStepCallsBack` | src/pacopy/natural.py:95-111 | A converged corrector fires callback(k, trial, u). If the loop goes on, the new state holds that u and lambda, and the index k + 1. |
| `NaturalProperties.MilestoneHitAdvancesCursor` | src/pacopy/natural.py:112-116 | An accepted step exactly at the pending milestone moves the cursor on and leaves the step size alone. At the last milestone the loop stops right after the callback. |
| `NaturalProperties.SingleNewtonStepBudgetRaises` | src/pacopy/natural.py:117-121 | With max_newton_steps = 1, an accepted step that is not on a milestone fires its callback and then raises the division-by-zero error. |
| `NaturalProperties.AcceptedStepGrowsStepsize` | src/pacopy/natural.py:117-123 | After an accepted step that is not on a milestone, the step size is min(old·(1 + a·((m−n)/(m−1))²), max). It never exceeds a finite maximum. It is at least the old step when a ≥ 0 and 0 ≤ old ≤ max. |
| `NaturalProperties.GrowthFactorAtLeastOne` | src/pacopy/natural.py:118-122 | With aggressiveness ≥ 0 the growth factor is at least 1. |
| `NaturalProperties.FullBudgetKeepsStepsize` | src/pacopy/natural.py:118-122 | A corrector that used its whole budget gives a growth factor of exactly 1. |
| `NaturalProperties.FewerNewtonStepsGrowMore` | src/pacopy/natural.py:118-122 | Within the budget, fewer Newton steps give a growth factor at least as large (for aggressiveness ≥ 0). |
| `NaturalProperties.StepKeepsStepsizePositive` | src/pacopy/natural.py:106-123 | If aggressiveness ≥ 0 and the maximum is positive, a pass keeps a positive step size strictly positive. |
| `NaturalProperties.LoopKeepsStepsizePositive` | src/pacopy/natural.py:73-123 | The same holds over a whole bounded run. |
| `NaturalProperties.StepKeepsStepsizeWithinMax` | src/pacopy/natural.py:106-123 | If aggressiveness ≥ 0, a pass keeps a step size that lies in [0, max] inside that interval. Halving keeps it there, growth is clamped, and a milestone hit leaves it unchanged. |
| `NaturalProperties.LoopKeepsStepsizeWithinMax` | src/pacopy/natural.py:73-123 | The same holds over a whole bounded run. |
| `NaturalProperties.NaturalStepsizeBounds` | src/pacopy/natural.py:69-123 | For the whole `natural` run: a positive lambda_stepsize0 stays positive (aggressiveness ≥ 0, positive maximum). A lambda_stepsize0 within [0, max] keeps every later step within it (aggressiveness ≥ 0). Under a maximum that is not negative, a lambda_stepsize0 not above it keeps every later step not above it, for any aggressiveness. |
| `NaturalProperties.StepKeepsStepsizeAtMostMax` | src/pacopy/natural.py:106-123 | Under a maximum that is not negative, a pass keeps a step size that is not above the maximum not above it, for any aggressiveness. Halving moves the step towards 0, and growth is clamped. |
| `NaturalProperties.LoopKeepsStepsizeAtMostMax` | src/pacopy/natural.py:73-123 | The same holds over a whole bounded run. |
| `NaturalProperties.NegativeMaximumCanBeExceeded` | src/pacopy/natural.py:106-108 | A concrete run: lambda_stepsize0 = -1.5 is below the maximum -1, and the first trial fails. The halved step size -0.75 is then above the maximum. |
| `NaturalProperties.DefaultsNeverDivideByZero` | src/pacopy/natural.py:11-19 | A `natural` call with every keyword option at its default (`Config(lambda0)`) never raises the division-by-zero error. |
| `NaturalProperties.LoopStateIsLastCallback` | src/pacopy/natural.py:94-111 | When a bounded run stops mid-loop, its u is the solution given to the last callback (the starting u if there was none). Its k is the starting k plus the number of callbacks. |
| `NaturalProperties.LoopLambdaAtMostLastCallback` | src/pacopy/natural.py:84-111 | When a bounded run stops mid-loop, its lambda is at most the lambda of the last callback (the starting lambda if there was none). A backoff never raises lambda, and an accepted step sets it to the callback's lambda. |
| `NaturalProperties.StepForwardWithoutMilestones` | src/pacopy/natural.py:84-111 | Without milestones, a pass that fires a callback does so at lambda + stepsize and moves there. A pass without a callback leaves lambda unchanged. |
| `NaturalProperties.LoopIncreasesWithoutMilestones` | src/pacopy/natural.py:73-123 | Without milestones, and with aggressiveness ≥ 0, a positive maximum and a positive step size, every callback of the loop is strictly above the starting lambda and strictly above the callback before it. |
| `NaturalProperties.NaturalIncreasesWithoutMilestones` | src/pacopy/natural.py:48-123 | For the whole `natural` run without milestones and with a positive lambda_stepsize0 (aggressiveness ≥ 0, positive maximum), the callback lambdas strictly increase from lambda0. |
| `NaturalProperties.StepCallbackConverged` | src/pacopy/natural.py:94-110 | A pass fires its callback only with a u that the corrector returned as converged at the callback's lambda, with newton_tol and max_newton_steps. |
| `NaturalProperties.LoopCallbacksConverged` | src/pacopy/natural.py:73-123 | Every callback of a bounded run reports a converged corrector result at its own lambda. |
| `NaturalProperties.NaturalCallbacksConverged` | src/pacopy/natural.py:54-123 | Every callback of `natural` reports a converged corrector result at its own lambda. The first is the initial solve at lambda0 from u0. |
| `NaturalProperties.CursorMovesOnlyOnHit` | src/pacopy/natural.py:112-116 | A pass moves the milestone cursor by at most one. It moves only when a callback was made exactly at the pending milestone. |
| `NaturalProperties.LoopNeverSkipsMilestone` | src/pacopy/natural.py:84-116 | With ascending milestones, no accepted lambda passes a milestone at or after the cursor unless an earlier callback was made exactly at that milestone. |
| `NaturalProperties.LoopStaysBelowLastMilestone` | src/pacopy/natural.py:84-86 | With ascending milestones, every accepted lambda of the loop is at most the last milestone. |
| `NaturalProperties.NaturalRespectsMilestones` | src/pacopy/natural.py:70-116 | For the whole `natural` run, every callback after the initial one is at most the last milestone, and none passes a milestone before a callback exactly at it. |
| `NaturalProperties.BackoffAfterClampCanGoBackwards` | src/pacopy/natural.py:84-108 | A concrete run: lambda0 = 0.4, step 0.3, milestones [0.5], and a corrector that fails only at 0.5. The accepted lambdas are 0.4 and then 0.35, so the accepted parameter goes backwards. |

## Left out

- Verbose printing (natural.py:77-81, 104-105; newton.py:15-16, 29-30): diagnostic output with no effect on control flow. `verbose` is not in `Config`.
- The numerics of `problem.f`, `jacobian_solver`, `df_dlmbda`, `norm2_r` and `numpy.linalg.norm`: they are function parameters without axioms.
- The first-order predictor's vector arithmetic (natural.py:87-91): it is the oracle `predict(u, trial, stepsize)`. Like the source, it receives the clamped trial lambda and the unclamped step size.
- src/pacopy/newton.py, the corrector that `natural` imports, is not part of this model. Only its interface is used: `Converged(u, steps)` or `Failed`. Its tolerance and budget arguments are `newton_tol` and `max_newton_steps`, as in the source.
- Float rounding, infinities other than the two `float("inf")` defaults, and NaN: reals are exact, so `(lambda + s) - s == lambda` holds in the model. A NaN norm, which the source never counts as converged, is not representable.
- Unbounded looping: the source loop need not terminate, since the backoff retries forever. `Loop` and `Natural` take a `fuel` bound on the number of passes and end with `OutOfFuel(state)` when it runs out. Runs longer than the fuel are not described.
- Exceptions raised by the callback or the problem functions: the callback is a recorded event with no effect on the driver.
- Copying and in-place update: `u0.copy()` and `u += du` are value semantics here. The caller's `u0` cannot be changed by construction, so there is nothing to prove about it.
- Determinism of repeated runs: `Natural` is a function, so equal inputs give equal runs by construction.
- `Newton.Newton` also returns `solves`, the number of `jacobian_solver` calls. It is an observation the source does not return, added so the call count can be stated.

=== FILE: natural.dfy ===
/**
  The natural-parameter continuation driver `natural` of src/pacopy/natural.py,
  as an immutable driver state and a pure single-step function.

  The problem (`f`, `jacobian_solver`, `df_dlmbda`, `norm2_r`) and the Newton
  corrector the driver imports are abstract oracles: the corrector is a function
  from (lambda, initial guess, tolerance, budget) to `Converged(u, steps)` or
  `Failed`, and the first-order predictor is a function of (u, lambda, step size).
  Python floats are `real`; `float("inf")` limits are `Limit.Infinite`.
 */
module NaturalContinuation {

  datatype Option<+T> = None | Some(value: T)

  /** A float option that may be `float("inf")`: `lambda_stepsize_max` and `max_steps`. */
  datatype Limit = Infinite | Finite(value: real)

  /** `min(x, limit)`. */
  function Cap(x: real, limit: Limit): (r: real)
    ensures r <= x
    ensures limit.Finite? ==> r <= limit.value
    ensures r == x || (limit.Finite? && r == limit.value)
  {
    if limit.Finite? && limit.value < x then limit.value else x
  }

  /** `k > limit`; nothing exceeds infinity. */
  predicate Exceeds(k: int, limit: Limit)
  {
    limit.Finite? && k as real > limit.value
  }

  /** Result of the Newton corrector: the solution and the number of Newton steps
      it used, or NewtonConvergenceError. */
  datatype Correction<+U> = Converged(u: U, steps: int) | Failed

  datatype Oracles<!U> = Oracles(
    // the corrector at (lambda, initial guess, tol, max_iter)
    newton: (real, U, real, int) -> Correction<U>,
    // the first-order predictor u + du/dlambda * stepsize at (u, lambda, stepsize)
    predict: (U, real, real) -> U)

  /** The keyword options of `natural`, with the source's default values;
      `verbose` only prints and is left out. `Config(lambda0)` is a call of
      `natural` that passes no keyword option. */
  datatype Config = Config(
    lambda0: real,
    stepsize0: real := 0.1,
    stepsizeMax: Limit := Infinite,
    aggressiveness: real := 2.0,
    maxNewtonSteps: int := 5,
    newtonTol: real := 0.000000000001,
    maxSteps: Limit := Infinite,
    firstOrder: bool := true,
    milestones: Option<seq<real>> := None)

  /** The loop variables of `natural`: the current solution and parameter, the step
      size, the next callback index `k`, and the position of the pending milestone
      in the milestone sequence (the iterator of the source). */
  datatype Driver<U> = Driver(u: U, lambda: real, stepsize: real, k: int, cursor: nat)

  /** One `callback(k, lmbda, u)` invocation. */
  datatype Event<U> = Event(k: int, lambda: real, u: U)

  /** The exceptions that escape `natural`: the re-raised initial
      NewtonConvergenceError, the StopIteration of an empty milestone sequence, and
      the ZeroDivisionError of the growth formula when `max_newton_steps == 1`. */
  datatype Error = InitialNoConvergence | NoMilestones | ZeroDivision

  /** What the loop does after one pass. */
  datatype Next<U> = Continue(state: Driver<U>) | Break | Raise(error: Error)

  /** One pass of the `while True` loop: at most one callback, then what follows. */
  datatype Transition<U> = Transition(event: Option<Event<U>>, next: Next<U>)

  /** A fuel-bounded run: every callback made, then how the run ended. */
  datatype End<U> = Returned | Raised(error: Error) | OutOfFuel(state: Driver<U>)
  datatype Run<U> = Run(events: seq<Event<U>>, end: End<U>)

  /** The cursor points at a pending milestone whenever milestones are configured. */
  predicate Valid<U>(cfg: Config, s: Driver<U>)
  {
    cfg.milestones.Some? ==> s.cursor < |cfg.milestones.value|
  }

  /** The milestone `next(milestones)` last produced. */
  function Milestone<U>(cfg: Config, s: Driver<U>): real
    requires Valid(cfg, s) && cfg.milestones.Some?
  {
    cfg.milestones.value[s.cursor]
  }

  /** The predictor's trial parameter: lambda + stepsize, clamped to the pending milestone. */
  function Trial<U>(cfg: Config, s: Driver<U>): (r: real)
    requires Valid(cfg, s)
    ensures r <= s.lambda + s.stepsize
    ensures cfg.milestones.None? ==> r == s.lambda + s.stepsize
    ensures cfg.milestones.Some? ==> r <= Milestone(cfg, s)
    ensures cfg.milestones.Some? ==> r == s.lambda + s.stepsize || r == Milestone(cfg, s)
  {
    var lambda := s.lambda + s.stepsize;
    if cfg.milestones.Some? then
      (if Milestone(cfg, s) < lambda then Milestone(cfg, s) else lambda)
    else lambda
  }

  /** The corrector's initial guess: the first-order prediction, or u itself. The
      predictor sees the clamped trial but the unclamped step size. */
  function Guess<U>(cfg: Config, o: Oracles<U>, s: Driver<U>): U
    requires Valid(cfg, s)
  {
    if cfg.firstOrder then o.predict(s.u, Trial(cfg, s), s.stepsize) else s.u
  }

  /** The Newton outcome a pass sees. */
  function Corrected<U>(cfg: Config, o: Oracles<U>, s: Driver<U>): Correction<U>
    requires Valid(cfg, s)
  {
    o.newton(Trial(cfg, s), Guess(cfg, o, s), cfg.newtonTol, cfg.maxNewtonSteps)
  }

  /** The step-growth factor 1 + a * ((m - n) / (m - 1))^2 for a corrector that used
      n of its m Newton steps; undefined when m == 1. */
  function GrowthFactor(cfg: Config, steps: int): real
    requires cfg.maxNewtonSteps != 1
  {
    var slack := (cfg.maxNewtonSteps - steps) as real / (cfg.maxNewtonSteps - 1) as real;
    1.0 + cfg.aggressiveness * (slack * slack)
  }

  /** The trial hit the pending milestone exactly. */
  predicate HitsMilestone<U>(cfg: Config, s: Driver<U>)
    requires Valid(cfg, s)
  {
    cfg.milestones.Some? && Trial(cfg, s) == Milestone(cfg, s)
  }

  /** One pass of the loop (lines 73-123): the `max_steps` test, predictor,
      corrector, and either the backoff or the callback followed by the milestone
      advance or the step growth. */
  function Step<U>(cfg: Config, o: Oracles<U>, s: Driver<U>): (t: Transition<U>)
    requires Valid(cfg, s)
    ensures t.next.Continue? ==> Valid(cfg, t.next.state)
    ensures t.event.Some? ==> !Exceeds(s.k, cfg.maxSteps) && t.event.value.k == s.k
    ensures t.next.Continue? ==> t.next.state.k == s.k + (if t.event.Some? then 1 else 0)
  {
    if Exceeds(s.k, cfg.maxSteps) then Transition(None, Break)
    else
      var trial := Trial(cfg, s);
      match Corrected(cfg, o, s)
      case Failed =>
        Transition(None, Continue(s.(lambda := trial - s.stepsize, stepsize := s.stepsize / 2.0)))
      case Converged(u, steps) =>
        var event := Event(s.k, trial, u);
        var accepted := s.(u := u, lambda := trial, k := s.k + 1);
        if HitsMilestone(cfg, s) then
          if s.cursor + 1 < |cfg.milestones.value| then
            Transition(Some(event), Continue(accepted.(cursor := s.cursor + 1)))
          else
            Transition(Some(event), Break)
        else if cfg.maxNewtonSteps == 1 then
          Transition(Some(event), Raise(ZeroDivision))
        else
          var grown := Cap(s.stepsize * GrowthFactor(cfg, steps), cfg.stepsizeMax);
          Transition(Some(event), Continue(accepted.(stepsize := grown)))
  }

  /** The last milestone of a non-empty sequence. */
  function Last(ms: seq<real>): real
    requires |ms| > 0
  {
    ms[|ms| - 1]
  }

  /** The events of a transition, as a sequence. */
  function Fired<U>(t: Transition<U>): seq<Event<U>>
  {
    if t.event.Some? then [t.event.value] else []
  }

  /** At most `fuel` passes of the loop from `s`. Callback indices run on
      consecutively from `s.k`, and no callback is made past `max_steps`. */
  function Loop<U>(cfg: Config, o: Oracles<U>, s: Driver<U>, fuel: nat): (r: Run<U>)
    requires Valid(cfg, s)
    ensures forall i :: 0 <= i < |r.events| ==> r.events[i].k == s.k + i
    ensures forall i :: 0 <= i < |r.events| ==> !Exceeds(r.events[i].k, cfg.maxSteps)
    ensures r.end.OutOfFuel? ==> Valid(cfg, r.end.state)
    // the only exception the loop raises is the growth formula's division by zero
    ensures r.end.Raised? ==> r.end.error == ZeroDivision && cfg.maxNewtonSteps == 1
    // the loop returns only past max_steps or right after a callback at the last milestone
    ensures r.end.Returned? ==>
      || Exceeds(s.k + |r.events|, cfg.maxSteps)
      || (cfg.milestones.Some? && |r.events| > 0
          && r.events[|r.events| - 1].lambda == Last(cfg.milestones.value))
    decreases fuel
  {
    if fuel == 0 then Run([], OutOfFuel(s))
    else
      var t := Step(cfg, o, s);
      match t.next
      case Continue(s') =>
        var rest := Loop(cfg, o, s', fuel - 1);
        assert |rest.events| > 0 ==>
          (Fired(t) + rest.events)[|Fired(t)| + |rest.events| - 1] == rest.events[|rest.events| - 1];
        Run(Fired(t) + rest.events, rest.end)
      case Break => Run(Fired(t), Returned)
      case Raise(e) => Run(Fired(t), Raised(e))
  }

  /** The state the loop starts in after the initial solve returned u. */
  function Start<U>(cfg: Config, u: U): Driver<U>
  {
    Driver(u, cfg.lambda0, cfg.stepsize0, 1, 0)
  }

  /** The initial Newton solve at lambda0 from the caller's guess. */
  function InitialSolve<U>(cfg: Config, o: Oracles<U>, u0: U): Correction<U>
  {
    o.newton(cfg.lambda0, u0, cfg.newtonTol, cfg.maxNewtonSteps)
  }

  /** `natural` with the loop bounded by `fuel` passes (lines 48-123). */
  function Natural<U>(cfg: Config, o: Oracles<U>, u0: U, fuel: nat): (r: Run<U>)
    // a failed initial solve is re-raised before any callback, and only then
    ensures InitialSolve(cfg, o, u0).Failed? ==> r == Run([], Raised(InitialNoConvergence))
    ensures r.end == Raised(InitialNoConvergence) ==> InitialSolve(cfg, o, u0).Failed?
    // otherwise the first callback is (0, lambda0, u) for the initial solution
    ensures InitialSolve(cfg, o, u0).Converged? ==>
      |r.events| >= 1 && r.events[0] == Event(0, cfg.lambda0, InitialSolve(cfg, o, u0).u)
    // exactly an empty milestone sequence raises right after that first callback
    ensures InitialSolve(cfg, o, u0).Converged? && cfg.milestones == Some([])
      ==> |r.events| == 1 && r.end == Raised(NoMilestones)
    ensures r.end == Raised(NoMilestones) ==> cfg.milestones == Some([])
    // the division by zero needs a Newton budget of one
    ensures r.end == Raised(ZeroDivision) ==> cfg.maxNewtonSteps == 1
    // a normal return is past max_steps or right after a callback at the last milestone
    ensures r.end == Returned ==>
      || Exceeds(|r.events|, cfg.maxSteps)
      || (cfg.milestones.Some? && |cfg.milestones.value| > 0 && |r.events| > 1
          && r.events[|r.events| - 1].lambda == Last(cfg.milestones.value))
    // callback indices are 0, 1, 2, ...
    ensures forall i :: 0 <= i < |r.events| ==> r.events[i].k == i
    // a finite max_steps bounds the callbacks to max_steps + 1 (the first always fires)
    ensures cfg.maxSteps.Finite? ==> |r.events| <= 1 || (|r.events| - 1) as real <= cfg.maxSteps.value
  {
    match InitialSolve(cfg, o, u0)
    case Failed => Run([], Raised(InitialNoConvergence))
    case Converged(u, _) =>
      var first := Event(0, cfg.lambda0, u);
      if cfg.milestones.Some? && |cfg.milestones.value| == 0 then
        Run([first], Raised(NoMilestones))
      else
        var rest := Loop(cfg, o, Start(cfg, u), fuel);
        assert forall i :: 1 <= i < |rest.events| + 1 ==> ([first] + rest.events)[i] == rest.events[i - 1];
        assert |rest.events| > 0 ==> !Exceeds(rest.events[|rest.events| - 1].k, cfg.maxSteps);
        Run([first] + rest.events, rest.end)
  }
}

=== FILE: natural_properties.dfy ===
/**
  Properties of the continuation driver: one lemma per kind of transition of
  `NaturalContinuation.Step`, facts about the step-growth factor, and invariants of the
  fuel-bounded run `NaturalContinuation.Loop` / `NaturalContinuation.Natural`.
 */
module NaturalProperties {
  import opened NaturalContinuation

  /** Once `k > max_steps` the loop breaks before predicting: no callback, no corrector. */
  lemma PastMaxStepsStops<U>(cfg: Config, o: Oracles<U>, s: Driver<U>)
    requires Valid(cfg, s)
    ensures Exceeds(s.k, cfg.maxSteps) ==> Step(cfg, o, s) == Transition(None, Break)
    ensures !Exceeds(s.k, cfg.maxSteps) ==>
      (Step(cfg, o, s).event.Some? <==> Corrected(cfg, o, s).Converged?)
  {
  }

  /** A failed corrector keeps u and k, fires no callback, halves the step size and
      sets lambda to trial - stepsize. That restores the lambda the pass started from
      exactly when the milestone clamp left the trial alone; a clamped trial that
      fails puts lambda below the lambda the pass started from. */
  lemma FailedCorrectionBacksOff<U>(cfg: Config, o: Oracles<U>, s: Driver<U>)
    requires Valid(cfg, s)
    requires !Exceeds(s.k, cfg.maxSteps) && Corrected(cfg, o, s).Failed?
    ensures Step(cfg, o, s).event.None?
    ensures Step(cfg, o, s).next.Continue?
    ensures var s' := Step(cfg, o, s).next.state;
      && s'.u == s.u && s'.k == s.k && s'.cursor == s.cursor
      && s'.stepsize == s.stepsize / 2.0
      && s'.lambda == Trial(cfg, s) - s.stepsize
      && (s'.lambda == s.lambda <==> Trial(cfg, s) == s.lambda + s.stepsize)
      && (Trial(cfg, s) < s.lambda + s.stepsize ==> s'.lambda < s.lambda)
  {
  }

  /** A converged corrector fires `callback(k, trial, u)` and, if the loop goes on,
      the new state holds that very (u, lambda) and the next index. */
  lemma AcceptedStepCallsBack<U>(cfg: Config, o: Oracles<U>, s: Driver<U>)
    requires Valid(cfg, s)
    requires !Exceeds(s.k, cfg.maxSteps) && Corrected(cfg, o, s).Converged?
    ensures Step(cfg, o, s).event == Some(Event(s.k, Trial(cfg, s), Corrected(cfg, o, s).u))
    ensures var t := Step(cfg, o, s);
      t.next.Continue? ==>
        && t.next.state.u == Corrected(cfg, o, s).u
        && t.next.state.lambda == Trial(cfg, s)
        && t.next.state.k == s.k + 1
  {
  }

  /** An accepted step that lands on the pending milestone moves the cursor on and
      leaves the step size as it was; after the last milestone the loop breaks. */
  lemma MilestoneHitAdvancesCursor<U>(cfg: Config, o: Oracles<U>, s: Driver<U>)
    requires Valid(cfg, s)
    requires !Exceeds(s.k, cfg.maxSteps) && Corrected(cfg, o, s).Converged?
    requires HitsMilestone(cfg, s)
    ensures Step(cfg, o, s).event.Some?
    ensures s.cursor + 1 < |cfg.milestones.value| ==>
      && Step(cfg, o, s).next.Continue?
      && Step(cfg, o, s).next.state.cursor == s.cursor + 1
      && Step(cfg, o, s).next.state.stepsize == s.stepsize
    ensures s.cursor + 1 == |cfg.milestones.value| ==> Step(cfg, o, s).next == Break
  {
  }

  /** With a Newton budget of one, an accepted step off the milestones reaches the
      growth formula's division by zero right after its callback. */
  lemma SingleNewtonStepBudgetRaises<U>(cfg: Config, o: Oracles<U>, s: Driver<U>)
    requires Valid(cfg, s)
    requires !Exceeds(s.k, cfg.maxSteps) && Corrected(cfg, o, s).Converged?
    requires !HitsMilestone(cfg, s) && cfg.maxNewtonSteps == 1
    ensures Step(cfg, o, s) == Transition(Some(Event(s.k, Trial(cfg, s), Corrected(cfg, o, s).u)), Raise(ZeroDivision))
  {
  }

  /** After an accepted step off the milestones the step size becomes
      min(old * (1 + a * ((m - n) / (m - 1))^2), max): never above the maximum, and
      never below the old step when a >= 0 and the old step is within the maximum. */
  lemma AcceptedStepGrowsStepsize<U>(cfg: Config, o: Oracles<U>, s: Driver<U>)
    requires Valid(cfg, s)
    requires !Exceeds(s.k, cfg.maxSteps) && Corrected(cfg, o, s).Converged?
    requires !HitsMilestone(cfg, s) && cfg.maxNewtonSteps != 1
    ensures Step(cfg, o, s).next.Continue?
    ensures var s' := Step(cfg, o, s).next.state;
      && s'.cursor == s.cursor
      && s'.stepsize == Cap(s.stepsize * GrowthFactor(cfg, Corrected(cfg, o, s).steps), cfg.stepsizeMax)
      && (cfg.stepsizeMax.Finite? ==> s'.stepsize <= cfg.stepsizeMax.value)
    ensures cfg.aggressiveness >= 0.0 && 0.0 <= s.stepsize
      && (cfg.stepsizeMax.Finite? ==> s.stepsize <= cfg.stepsizeMax.value)
      ==> Step(cfg, o, s).next.state.stepsize >= s.stepsize
  {
  }

  /** With a non-negative aggressiveness the step never shrinks on success. */
  lemma GrowthFactorAtLeastOne(cfg: Config, steps: int)
    requires cfg.maxNewtonSteps != 1 && cfg.aggressiveness >= 0.0
    ensures GrowthFactor(cfg, steps) >= 1.0
  {
  }

  /** A corrector that exhausted its whole budget leaves the step size alone. */
  lemma FullBudgetKeepsStepsize(cfg: Config)
    requires cfg.maxNewtonSteps != 1
    ensures GrowthFactor(cfg, cfg.maxNewtonSteps) == 1.0
  {
  }

  /** Fewer Newton steps used means more growth, within the budget. */
  lemma FewerNewtonStepsGrowMore(cfg: Config, fewer: int, more: int)
    requires cfg.maxNewtonSteps >= 2 && cfg.aggressiveness >= 0.0
    requires 0 <= fewer <= more <= cfg.maxNewtonSteps
    ensures GrowthFactor(cfg, fewer) >= GrowthFactor(cfg, more)
  {
  }

  /** The options under which the step size, once positive, stays positive. */
  predicate PositiveSteps(cfg: Config)
  {
    && cfg.aggressiveness >= 0.0
    && (cfg.stepsizeMax.Finite? ==> cfg.stepsizeMax.value > 0.0)
  }

  /** A step size within [0, lambda_stepsize_max]. */
  predicate WithinMax(cfg: Config, stepsize: real)
  {
    0.0 <= stepsize && (cfg.stepsizeMax.Finite? ==> stepsize <= cfg.stepsizeMax.value)
  }

  /** Halving, growth and the clamp to a positive maximum keep the step size positive. */
  lemma StepKeepsStepsizePositive<U>(cfg: Config, o: Oracles<U>, s: Driver<U>)
    requires Valid(cfg, s) && PositiveSteps(cfg) && s.stepsize > 0.0
    ensures Step(cfg, o, s).next.Continue? ==> Step(cfg, o, s).next.state.stepsize > 0.0
  {
  }

  /** Every state the bounded run ends in still has a positive step size. */
  lemma {:induction false} LoopKeepsStepsizePositive<U>(cfg: Config, o: Oracles<U>, s: Driver<U>, fuel: nat)
    requires Valid(cfg, s) && PositiveSteps(cfg) && s.stepsize > 0.0
    ensures Loop(cfg, o, s, fuel).end.OutOfFuel? ==> Loop(cfg, o, s, fuel).end.state.stepsize > 0.0
    decreases fuel
  {
    if fuel > 0 {
      StepKeepsStepsizePositive(cfg, o, s);
      var t := Step(cfg, o, s);
      if t.next.Continue? {
        LoopKeepsStepsizePositive(cfg, o, t.next.state, fuel - 1);
      }
    }
  }

  /** Halving keeps a step within the maximum, growth is clamped to it, and a
      milestone hit leaves the step alone, so a step within the maximum stays so. */
  lemma StepKeepsStepsizeWithinMax<U>(cfg: Config, o: Oracles<U>, s: Driver<U>)
    requires Valid(cfg, s) && cfg.aggressiveness >= 0.0 && WithinMax(cfg, s.stepsize)
    ensures Step(cfg, o, s).next.Continue? ==> WithinMax(cfg, Step(cfg, o, s).next.state.stepsize)
  {
  }

  /** Every state the bounded run ends in keeps a step size within the maximum. */
  lemma {:induction false} LoopKeepsStepsizeWithinMax<U>(cfg: Config, o: Oracles<U>, s: Driver<U>, fuel: nat)
    requires Valid(cfg, s) && cfg.aggressiveness >= 0.0 && WithinMax(cfg, s.stepsize)
    ensures Loop(cfg, o, s, fuel).end.OutOfFuel? ==> WithinMax(cfg, Loop(cfg, o, s, fuel).end.state.stepsize)
    decreases fuel
  {
    if fuel > 0 {
      StepKeepsStepsizeWithinMax(cfg, o, s);
      var t := Step(cfg, o, s);
      if t.next.Continue? {
        LoopKeepsStepsizeWithinMax(cfg, o, t.next.state, fuel - 1);
      }
    }
  }

  /** The maximum step size is infinite or not negative. */
  predicate NonNegativeMax(cfg: Config)
  {
    cfg.stepsizeMax.Finite? ==> cfg.stepsizeMax.value >= 0.0
  }

  /** A step size not above lambda_stepsize_max. */
  predicate AtMostMax(cfg: Config, stepsize: real)
  {
    cfg.stepsizeMax.Finite? ==> stepsize <= cfg.stepsizeMax.value
  }

  /** Under a maximum that is not negative, halving moves a step towards 0 and so
      not above the maximum, and growth is clamped to it, whatever the aggressiveness. */
  lemma StepKeepsStepsizeAtMostMax<U>(cfg: Config, o: Oracles<U>, s: Driver<U>)
    requires Valid(cfg, s) && NonNegativeMax(cfg) && AtMostMax(cfg, s.stepsize)
    ensures Step(cfg, o, s).next.Continue? ==> AtMostMax(cfg, Step(cfg, o, s).next.state.stepsize)
  {
  }

  /** Every state the bounded run ends in keeps a step size not above the maximum. */
  lemma {:induction false} LoopKeepsStepsizeAtMostMax<U>(cfg: Config, o: Oracles<U>, s: Driver<U>, fuel: nat)
    requires Valid(cfg, s) && NonNegativeMax(cfg) && AtMostMax(cfg, s.stepsize)
    ensures Loop(cfg, o, s, fuel).end.OutOfFuel? ==> AtMostMax(cfg, Loop(cfg, o, s, fuel).end.state.stepsize)
    decreases fuel
  {
    if fuel > 0 {
      StepKeepsStepsizeAtMostMax(cfg, o, s);
      var t := Step(cfg, o, s);
      if t.next.Continue? {
        LoopKeepsStepsizeAtMostMax(cfg, o, t.next.state, fuel - 1);
      }
    }
  }

  /** For the whole `natural` run: a positive `lambda_stepsize0` stays positive; a
      `lambda_stepsize0` within [0, max] keeps every later step within it; and under a
      maximum that is not negative, a `lambda_stepsize0` not above it keeps every later
      step not above it. */
  lemma NaturalStepsizeBounds<U>(cfg: Config, o: Oracles<U>, u0: U, fuel: nat)
    ensures Natural(cfg, o, u0, fuel).end.OutOfFuel? && PositiveSteps(cfg) && cfg.stepsize0 > 0.0
      ==> Natural(cfg, o, u0, fuel).end.state.stepsize > 0.0
    ensures Natural(cfg, o, u0, fuel).end.OutOfFuel? && cfg.aggressiveness >= 0.0 && WithinMax(cfg, cfg.stepsize0)
      ==> WithinMax(cfg, Natural(cfg, o, u0, fuel).end.state.stepsize)
    ensures Natural(cfg, o, u0, fuel).end.OutOfFuel? && NonNegativeMax(cfg) && AtMostMax(cfg, cfg.stepsize0)
      ==> AtMostMax(cfg, Natural(cfg, o, u0, fuel).end.state.stepsize)
  {
    var init := InitialSolve(cfg, o, u0);
    if init.Converged? && !(cfg.milestones.Some? && |cfg.milestones.value| == 0) {
      var s := Start(cfg, init.u);
      assert Natural(cfg, o, u0, fuel).end == Loop(cfg, o, s, fuel).end;
      if PositiveSteps(cfg) && cfg.stepsize0 > 0.0 {
        LoopKeepsStepsizePositive(cfg, o, s, fuel);
      }
      if cfg.aggressiveness >= 0.0 && WithinMax(cfg, cfg.stepsize0) {
        LoopKeepsStepsizeWithinMax(cfg, o, s, fuel);
      }
      if NonNegativeMax(cfg) && AtMostMax(cfg, cfg.stepsize0) {
        LoopKeepsStepsizeAtMostMax(cfg, o, s, fuel);
      }
    }
  }

  /** A negative maximum can be exceeded: halving a negative step size below it
      moves the step towards 0 and above the maximum. Here lambda_stepsize0 = -1.5
      is below the maximum -1 and the first trial fails, leaving -0.75. */
  lemma NegativeMaximumCanBeExceeded()
    ensures var cfg := Config(0.0, stepsize0 := -1.5, stepsizeMax := Finite(-1.0));
      var o := Oracles((lambda: real, guess: real, tol: real, budget: int) =>
                         if lambda == 0.0 then Converged(guess, 0) else Failed,
                       (u: real, lambda: real, h: real) => u);
      var r := Natural(cfg, o, 0.0, 1);
      && cfg.stepsize0 <= cfg.stepsizeMax.value
      && r.end.OutOfFuel?
      && r.end.state.stepsize == -0.75
      && r.end.state.stepsize > cfg.stepsizeMax.value
  {
    var cfg := Config(0.0, stepsize0 := -1.5, stepsizeMax := Finite(-1.0));
    var o := Oracles((lambda: real, guess: real, tol: real, budget: int) =>
                       if lambda == 0.0 then Converged(guess, 0) else Failed,
                     (u: real, lambda: real, h: real) => u);
    var s0 := Start(cfg, 0.0);
    assert Trial(cfg, s0) == -1.5;
    assert Step(cfg, o, s0).next == Continue(Driver(0.0, 0.0, -0.75, 1, 0));
  }

  /** A call of `natural` with every keyword option at its default never reaches the
      growth formula's division by zero: the default Newton budget is 5, not 1. */
  lemma DefaultsNeverDivideByZero<U>(lambda0: real, o: Oracles<U>, u0: U, fuel: nat)
    ensures Natural(Config(lambda0), o, u0, fuel).end != Raised(ZeroDivision)
  {
  }

  /** When the bounded run stops mid-loop, its u is the solution of the last
      callback (or the starting u when none was made), and k is the next index. */
  lemma {:induction false} LoopStateIsLastCallback<U>(cfg: Config, o: Oracles<U>, s: Driver<U>, fuel: nat)
    requires Valid(cfg, s)
    ensures var r := Loop(cfg, o, s, fuel);
      r.end.OutOfFuel? ==>
        && r.end.state.k == s.k + |r.events|
        && r.end.state.u == (if |r.events| == 0 then s.u else r.events[|r.events| - 1].u)
    decreases fuel
  {
    if fuel > 0 {
      var t := Step(cfg, o, s);
      if t.next.Continue? {
        LoopStateIsLastCallback(cfg, o, t.next.state, fuel - 1);
      }
    }
  }

  /** When the bounded run stops mid-loop, its lambda is at most the lambda of the
      last callback (or the starting lambda when none was made): a backoff never
      moves lambda above where its pass started, and an accepted step moves it to
      the callback's lambda. */
  lemma {:induction false} LoopLambdaAtMostLastCallback<U>(cfg: Config, o: Oracles<U>, s: Driver<U>, fuel: nat)
    requires Valid(cfg, s)
    ensures var r := Loop(cfg, o, s, fuel);
      r.end.OutOfFuel? ==>
        r.end.state.lambda <= (if |r.events| == 0 then s.lambda else r.events[|r.events| - 1].lambda)
    decreases fuel
  {
    if fuel > 0 {
      var t := Step(cfg, o, s);
      if t.next.Continue? {
        var rest := Loop(cfg, o, t.next.state, fuel - 1).events;
        LoopLambdaAtMostLastCallback(cfg, o, t.next.state, fuel - 1);
        var events := Fired(t) + rest;
        assert Loop(cfg, o, s, fuel).events == events;
        if |rest| > 0 {
          assert events[|events| - 1] == rest[|rest| - 1];
        }
      }
    }
  }

  /** Every callback in `events` is strictly above `bound`. */
  predicate AllAbove<U>(events: seq<Event<U>>, bound: real)
  {
    forall i :: 0 <= i < |events| ==> events[i].lambda > bound
  }

  /** The callbacks' lambdas strictly increase. */
  predicate Increasing<U>(events: seq<Event<U>>)
  {
    forall i, j :: 0 <= i < j < |events| ==> events[i].lambda < events[j].lambda
  }

  /** Putting a callback below every later one in front keeps the lambdas increasing. */
  lemma IncreasingPrepend<U>(e: Event<U>, rest: seq<Event<U>>)
    requires AllAbove(rest, e.lambda) && Increasing(rest)
    ensures Increasing([e] + rest)
  {
    var events := [e] + rest;
    forall i, j | 0 <= i < j < |events|
      ensures events[i].lambda < events[j].lambda
    {
      assert events[j] == rest[j - 1];
      if i > 0 {
        assert events[i] == rest[i - 1];
      }
    }
  }

  /** Putting a callback above `bound` in front keeps every callback above it. */
  lemma AllAbovePrepend<U>(e: Event<U>, rest: seq<Event<U>>, bound: real)
    requires e.lambda > bound && AllAbove(rest, bound)
    ensures AllAbove([e] + rest, bound)
  {
    var events := [e] + rest;
    forall i | 0 <= i < |events|
      ensures events[i].lambda > bound
    {
      if i > 0 {
        assert events[i] == rest[i - 1];
      }
    }
  }

  /** Callbacks above a bound are above any lower bound too. */
  lemma AllAboveLower<U>(events: seq<Event<U>>, bound: real, lower: real)
    requires AllAbove(events, bound) && lower <= bound
    ensures AllAbove(events, lower)
  {
  }

  /** Without milestones a pass either fires a callback at lambda + stepsize and
      moves there, or fires none and leaves lambda where it was. */
  lemma StepForwardWithoutMilestones<U>(cfg: Config, o: Oracles<U>, s: Driver<U>)
    requires Valid(cfg, s) && cfg.milestones.None?
    ensures Step(cfg, o, s).event.Some? ==> Step(cfg, o, s).event.value.lambda == s.lambda + s.stepsize
    ensures Step(cfg, o, s).next.Continue? ==>
      Step(cfg, o, s).next.state.lambda == s.lambda + (if Step(cfg, o, s).event.Some? then s.stepsize else 0.0)
  {
  }

  /** Without milestones nothing clamps the trial, so a backoff restores lambda
      exactly and every accepted lambda is lambda + stepsize with a positive step:
      the continuation only moves forward, each callback strictly above the last. */
  lemma {:induction false} LoopIncreasesWithoutMilestones<U>(cfg: Config, o: Oracles<U>, s: Driver<U>, fuel: nat)
    requires Valid(cfg, s) && cfg.milestones.None? && PositiveSteps(cfg) && s.stepsize > 0.0
    ensures AllAbove(Loop(cfg, o, s, fuel).events, s.lambda)
    ensures Increasing(Loop(cfg, o, s, fuel).events)
    decreases fuel
  {
    if fuel > 0 {
      var t := Step(cfg, o, s);
      StepForwardWithoutMilestones(cfg, o, s);
      var rest: seq<Event<U>> := [];
      if t.next.Continue? {
        var s' := t.next.state;
        StepKeepsStepsizePositive(cfg, o, s);
        rest := Loop(cfg, o, s', fuel - 1).events;
        LoopIncreasesWithoutMilestones(cfg, o, s', fuel - 1);
        AllAboveLower(rest, s'.lambda, s.lambda);
      }
      assert Loop(cfg, o, s, fuel).events == Fired(t) + rest;
      if t.event.Some? {
        var e := t.event.value;
        if t.next.Continue? {
          assert AllAbove(rest, e.lambda);
        }
        IncreasingPrepend(e, rest);
        AllAbovePrepend(e, rest, s.lambda);
      } else {
        assert Fired(t) + rest == rest;
      }
    }
  }

  /** At the level of `natural`, without milestones and with a positive
      `lambda_stepsize0`: every callback's lambda is strictly above the one before,
      starting from lambda0. */
  lemma NaturalIncreasesWithoutMilestones<U>(cfg: Config, o: Oracles<U>, u0: U, fuel: nat)
    requires cfg.milestones.None? && PositiveSteps(cfg) && cfg.stepsize0 > 0.0
    ensures Increasing(Natural(cfg, o, u0, fuel).events)
  {
    var init := InitialSolve(cfg, o, u0);
    if init.Converged? {
      var s := Start(cfg, init.u);
      var rest := Loop(cfg, o, s, fuel).events;
      LoopIncreasesWithoutMilestones(cfg, o, s, fuel);
      assert Natural(cfg, o, u0, fuel).events == [Event(0, cfg.lambda0, init.u)] + rest;
      IncreasingPrepend(Event(0, cfg.lambda0, init.u), rest);
    }
  }

  /** The callback's u is what the corrector returned, converged, at the callback's
      own lambda from some initial guess, with the run's tolerance and budget. */
  ghost predicate ConvergedAt<U(!new)>(cfg: Config, o: Oracles<U>, e: Event<U>)
  {
    exists g: U, n: int :: o.newton(e.lambda, g, cfg.newtonTol, cfg.maxNewtonSteps) == Converged(e.u, n)
  }

  /** Every callback in `events` reports a converged corrector result. */
  ghost predicate AllConverged<U(!new)>(cfg: Config, o: Oracles<U>, events: seq<Event<U>>)
  {
    forall i :: 0 <= i < |events| ==> ConvergedAt(cfg, o, events[i])
  }

  /** Putting a converged callback in front keeps every callback converged. */
  lemma AllConvergedPrepend<U(!new)>(cfg: Config, o: Oracles<U>, e: Event<U>, rest: seq<Event<U>>)
    requires ConvergedAt(cfg, o, e) && AllConverged(cfg, o, rest)
    ensures AllConverged(cfg, o, [e] + rest)
  {
    var events := [e] + rest;
    forall i | 0 <= i < |events|
      ensures ConvergedAt(cfg, o, events[i])
    {
      if i > 0 {
        assert events[i] == rest[i - 1];
      }
    }
  }

  /** A pass fires its callback only with the corrector's converged result at the
      trial lambda. */
  lemma StepCallbackConverged<U(!new)>(cfg: Config, o: Oracles<U>, s: Driver<U>)
    requires Valid(cfg, s)
    ensures Step(cfg, o, s).event.Some? ==> ConvergedAt(cfg, o, Step(cfg, o, s).event.value)
  {
    var t := Step(cfg, o, s);
    if t.event.Some? {
      assert o.newton(t.event.value.lambda, Guess(cfg, o, s), cfg.newtonTol, cfg.maxNewtonSteps)
        == Converged(t.event.value.u, Corrected(cfg, o, s).steps);
    }
  }

  /** Every callback of the bounded run fires only after the corrector converged at
      that callback's lambda, to that callback's u. */
  lemma {:induction false} LoopCallbacksConverged<U(!new)>(cfg: Config, o: Oracles<U>, s: Driver<U>, fuel: nat)
    requires Valid(cfg, s)
    ensures AllConverged(cfg, o, Loop(cfg, o, s, fuel).events)
    decreases fuel
  {
    if fuel > 0 {
      var t := Step(cfg, o, s);
      var rest: seq<Event<U>> := [];
      if t.next.Continue? {
        rest := Loop(cfg, o, t.next.state, fuel - 1).events;
        LoopCallbacksConverged(cfg, o, t.next.state, fuel - 1);
      }
      assert Loop(cfg, o, s, fuel).events == Fired(t) + rest;
      if t.event.Some? {
        StepCallbackConverged(cfg, o, s);
        AllConvergedPrepend(cfg, o, t.event.value, rest);
      } else {
        assert Fired(t) + rest == rest;
      }
    }
  }

  /** At the level of `natural`: the initial callback reports the initial solve at
      lambda0, and every later one a converged corrector at its own lambda. */
  lemma NaturalCallbacksConverged<U(!new)>(cfg: Config, o: Oracles<U>, u0: U, fuel: nat)
    ensures AllConverged(cfg, o, Natural(cfg, o, u0, fuel).events)
  {
    var init := InitialSolve(cfg, o, u0);
    if init.Converged? {
      var first := Event(0, cfg.lambda0, init.u);
      assert o.newton(first.lambda, u0, cfg.newtonTol, cfg.maxNewtonSteps) == Converged(first.u, init.steps);
      var events := Natural(cfg, o, u0, fuel).events;
      var rest: seq<Event<U>> := [];
      if !(cfg.milestones.Some? && |cfg.milestones.value| == 0) {
        rest := Loop(cfg, o, Start(cfg, init.u), fuel).events;
        LoopCallbacksConverged(cfg, o, Start(cfg, init.u), fuel);
      }
      assert events == [first] + rest;
      AllConvergedPrepend(cfg, o, first, rest);
    }
  }

  /** The milestone sequence is given in ascending order. */
  predicate Ascending(ms: seq<real>)
  {
    forall i, j :: 0 <= i <= j < |ms| ==> ms[i] <= ms[j]
  }

  /** No callback in `events` has a lambda beyond a milestone ms[j], j >= from,
      unless an earlier callback was made exactly at ms[j]. */
  predicate NeverSkips<U>(events: seq<Event<U>>, ms: seq<real>, from: nat)
  {
    forall i, j :: 0 <= i < |events| && from <= j < |ms| && events[i].lambda > ms[j] ==>
      exists p :: 0 <= p < i && events[p].lambda == ms[j]
  }

  /** Putting one callback in front of a run that never skips from cursor c' keeps
      the property from cursor c, when that callback is at or below ms[c] and the
      cursor only moved on if it was exactly at ms[c]. */
  lemma NeverSkipsPrepend<U>(e: Event<U>, rest: seq<Event<U>>, ms: seq<real>, c: nat, c': nat)
    requires Ascending(ms) && c < |ms| && e.lambda <= ms[c]
    requires c' == c || (c' == c + 1 && e.lambda == ms[c])
    requires NeverSkips(rest, ms, c')
    ensures NeverSkips([e] + rest, ms, c)
  {
    var events := [e] + rest;
    forall i, j | 0 <= i < |events| && c <= j < |ms| && events[i].lambda > ms[j]
      ensures exists p :: 0 <= p < i && events[p].lambda == ms[j]
    {
      assert i != 0;
      assert events[i] == rest[i - 1];
      if j >= c' {
        var p :| 0 <= p < i - 1 && rest[p].lambda == ms[j];
        assert events[p + 1] == rest[p];
      } else {
        assert events[0].lambda == ms[j];
      }
    }
  }

  /** No accepted lambda of the bounded run passes a milestone at or after the
      cursor before a callback has been made exactly at that milestone. */
  lemma {:induction false} LoopNeverSkipsMilestone<U>(cfg: Config, o: Oracles<U>, s: Driver<U>, fuel: nat)
    requires Valid(cfg, s) && cfg.milestones.Some? && Ascending(cfg.milestones.value)
    ensures NeverSkips(Loop(cfg, o, s, fuel).events, cfg.milestones.value, s.cursor)
    decreases fuel
  {
    var ms := cfg.milestones.value;
    if fuel > 0 {
      var t := Step(cfg, o, s);
      var rest: seq<Event<U>> := [];
      var c' := s.cursor;
      if t.next.Continue? {
        rest := Loop(cfg, o, t.next.state, fuel - 1).events;
        c' := t.next.state.cursor;
        LoopNeverSkipsMilestone(cfg, o, t.next.state, fuel - 1);
        CursorMovesOnlyOnHit(cfg, o, s);
      }
      assert Loop(cfg, o, s, fuel).events == Fired(t) + rest;
      if t.event.Some? {
        NeverSkipsPrepend(t.event.value, rest, ms, s.cursor, c');
      } else {
        assert Fired(t) + rest == rest;
      }
    }
  }

  /** The cursor moves by at most one, and only on a callback exactly at the
      pending milestone. */
  lemma CursorMovesOnlyOnHit<U>(cfg: Config, o: Oracles<U>, s: Driver<U>)
    requires Valid(cfg, s) && cfg.milestones.Some?
    requires Step(cfg, o, s).next.Continue?
    ensures var s' := Step(cfg, o, s).next.state;
      && (s'.cursor == s.cursor || s'.cursor == s.cursor + 1)
      && (s'.cursor == s.cursor + 1 ==>
            Step(cfg, o, s).event.Some? && Step(cfg, o, s).event.value.lambda == Milestone(cfg, s))
  {
  }

  /** Every trial, and so every accepted lambda of the loop, is at most the last
      milestone when the milestones ascend. */
  lemma {:induction false} LoopStaysBelowLastMilestone<U>(cfg: Config, o: Oracles<U>, s: Driver<U>, fuel: nat)
    requires Valid(cfg, s) && cfg.milestones.Some? && Ascending(cfg.milestones.value)
    ensures forall i :: 0 <= i < |Loop(cfg, o, s, fuel).events| ==>
      Loop(cfg, o, s, fuel).events[i].lambda <= Last(cfg.milestones.value)
    decreases fuel
  {
    var ms := cfg.milestones.value;
    if fuel > 0 {
      var t := Step(cfg, o, s);
      if t.event.Some? {
        assert t.event.value.lambda == Trial(cfg, s) <= ms[s.cursor] <= ms[|ms| - 1];
      }
      if t.next.Continue? {
        var rest := Loop(cfg, o, t.next.state, fuel - 1);
        LoopStaysBelowLastMilestone(cfg, o, t.next.state, fuel - 1);
        assert Loop(cfg, o, s, fuel).events == Fired(t) + rest.events;
      }
    }
  }

  /** Every callback in `events` is at or below `bound`. */
  predicate AllAtMost<U>(events: seq<Event<U>>, bound: real)
  {
    forall i :: 0 <= i < |events| ==> events[i].lambda <= bound
  }

  /** At the level of `natural`: with ascending milestones, every callback after the
      initial one is at or below the last milestone, and none passes a milestone
      without a callback exactly at it first. */
  lemma NaturalRespectsMilestones<U>(cfg: Config, o: Oracles<U>, u0: U, fuel: nat)
    requires cfg.milestones.Some? && Ascending(cfg.milestones.value)
    ensures |Natural(cfg, o, u0, fuel).events| >= 1 && |cfg.milestones.value| > 0 ==>
      AllAtMost(Natural(cfg, o, u0, fuel).events[1..], Last(cfg.milestones.value))
    ensures |Natural(cfg, o, u0, fuel).events| >= 1 ==>
      NeverSkips(Natural(cfg, o, u0, fuel).events[1..], cfg.milestones.value, 0)
  {
    var r := Natural(cfg, o, u0, fuel);
    var ms := cfg.milestones.value;
    var init := InitialSolve(cfg, o, u0);
    if init.Converged? && |ms| > 0 {
      var s := Start(cfg, init.u);
      var rest := Loop(cfg, o, s, fuel);
      assert r.events[1..] == rest.events;
      LoopStaysBelowLastMilestone(cfg, o, s, fuel);
      LoopNeverSkipsMilestone(cfg, o, s, fuel);
    }
  }

  /** lambda0 = 0.4, step 0.3, milestones [0.5], and a corrector that fails only at
      0.5: the clamped trial 0.5 fails, lambda drops to 0.5 - 0.3 = 0.2 with step
      0.15, and the next accepted parameter is 0.35, below the accepted 0.4. */
  lemma BackoffAfterClampCanGoBackwards()
    ensures var cfg := Config(0.4, 0.3, Infinite, 2.0, 5, 0.000000000001, Infinite, false, Some([0.5]));
      var o := Oracles((lambda: real, guess: real, tol: real, budget: int) =>
                         if lambda == 0.5 then Failed else Converged(lambda, 1),
                       (u: real, lambda: real, h: real) => u);
      var r := Natural(cfg, o, 0.0, 2);
      && |r.events| == 2
      && r.events[0].lambda == 0.4
      && r.events[1].lambda == 0.35
      && r.events[1].lambda < r.events[0].lambda
  {
    var cfg := Config(0.4, 0.3, Infinite, 2.0, 5, 0.000000000001, Infinite, false, Some([0.5]));
    var o := Oracles((lambda: real, guess: real, tol: real, budget: int) =>
                       if lambda == 0.5 then Failed else Converged(lambda, 1),
                     (u: real, lambda: real, h: real) => u);
    var s0 := Start(cfg, 0.4);
    assert Trial(cfg, s0) == 0.5;
    var s1 := Step(cfg, o, s0).next.state;
    assert s1 == Driver(0.4, 0.2, 0.15, 1, 0);
    assert Trial(cfg, s1) == 0.35;
    var t2 := Step(cfg, o, s1);
    assert t2.event == Some(Event(1, 0.35, 0.35));
  }
}

=== FILE: newton.dfy ===
/**
  The Newton corrector of pycont/newton.py: starting from u0, repeatedly solve
  J(u) du = -f(u) with a caller-supplied linear solver and add du to u, until the
  residual norm drops below a tolerance or the iteration budget runs out.

  The vector type is abstract. The residual, the linear solver, vector addition,
  negation and the norm are all passed in as total functions, with no axioms about
  them: the point of the model is exactly when the loop declares success or failure.
 */
module Newton {

  /** The vector operations the loop needs (numpy's `+=`, unary `-` and `linalg.norm`). */
  datatype VectorOps<!V> = VectorOps(add: (V, V) -> V, neg: V -> V, norm: V -> real)

  /** What `newton` returns: the converged iterate, or the NewtonConvergenceError it
      raises, carrying the step count its message reports. */
  datatype Outcome<V> = Converged(u: V) | NoConvergence(steps: int)

  /** Residual norm ||f(u)|| of an iterate. */
  function Residual<V>(f: V -> V, ops: VectorOps<V>, u: V): real
  {
    ops.norm(f(u))
  }

  /** One Newton correction: u + jacobianSolver(u, -f(u)). */
  function Correct<V>(f: V -> V, jacobianSolver: (V, V) -> V, ops: VectorOps<V>, u: V): V
  {
    ops.add(u, jacobianSolver(u, ops.neg(f(u))))
  }

  /** The n-th Newton iterate from u0: the reference sequence u_0, u_1, ... that the
      loop walks along. */
  function Iterate<V>(f: V -> V, jacobianSolver: (V, V) -> V, ops: VectorOps<V>, u0: V, n: nat): V
  {
    if n == 0 then u0 else Correct(f, jacobianSolver, ops, Iterate(f, jacobianSolver, ops, u0, n - 1))
  }

  /** The loop of pycont/newton.py. `solves` counts the calls made to
      `jacobianSolver` (the source's local `k`); it is reported on both paths.

      The convergence test sits at the top of the loop body, so it is only ever
      applied to the iterates u_0 .. u_{maxIter-1}: the result is a success exactly
      when one of those is below `tol`, and it is then the first such iterate.
      `tol` and `maxIter` default to the source's 1e-10 and 20. */
  method Newton<V>(f: V -> V, jacobianSolver: (V, V) -> V, ops: VectorOps<V>,
                   u0: V, tol: real := 0.0000000001, maxIter: int := 20)
    returns (r: Outcome<V>, solves: nat)
    // success: the first iterate whose tested norm is below tol, found within the budget
    ensures r.Converged? ==>
      && solves < maxIter
      && r.u == Iterate(f, jacobianSolver, ops, u0, solves)
      && Residual(f, ops, r.u) < tol
      && (forall j :: 0 <= j < solves ==> Residual(f, ops, Iterate(f, jacobianSolver, ops, u0, j)) >= tol)
    // failure exactly when none of the tested iterates u_0 .. u_{maxIter-1} converged
    ensures r.NoConvergence? <==>
      (forall j :: 0 <= j < maxIter ==> Residual(f, ops, Iterate(f, jacobianSolver, ops, u0, j)) >= tol)
    // on failure the reported count, and the number of solver calls, is the budget
    ensures r.NoConvergence? ==> r.steps == solves && solves == (if maxIter < 0 then 0 else maxIter)
    // a zero or negative budget always fails, even at an already converged u0
    ensures maxIter <= 0 ==> r.NoConvergence?
    // an already converged u0 is returned unchanged without any solve, given a budget
    ensures maxIter >= 1 && Residual(f, ops, u0) < tol ==> r == Converged(u0) && solves == 0
  {
    var u := u0;
    var fu := f(u);
    var nrm := ops.norm(fu);
    var k := 0;
    while k < maxIter
      invariant 0 <= k
      invariant k <= maxIter || k == 0
      invariant u == Iterate(f, jacobianSolver, ops, u0, k)
      invariant fu == f(u) && nrm == ops.norm(fu)
      invariant forall j :: 0 <= j < k ==> Residual(f, ops, Iterate(f, jacobianSolver, ops, u0, j)) >= tol
      decreases maxIter - k
    {
      if nrm < tol {
        return Converged(u), k;
      }
      var du := jacobianSolver(u, ops.neg(fu));
      u := ops.add(u, du);
      fu := f(u);
      nrm := ops.norm(fu);
      k := k + 1;
    }
    r, solves := NoConvergence(k), k;
  }
}
